=== FILE: README.md ===
# Carousel navigation, modelled in Dafny

This project models the navigation logic of the two carousel components of
react-gallery-carousel. The rendering shell is not modelled.

- **The original component** (`src/Carousel/Carousel.js`) keeps a padded
  slide index. In loop mode the rendered list carries a copy of the last
  image in front and a copy of the first image at the back. A move that is
  not a swipe first re-bases the index silently across that seam, then takes
  a modular step. A drag re-bases the same way while it follows the finger.
  On release the drag is classified against a fraction of the container
  width. Each committed move (a snap-back included) plans a transition
  duration, capped when autoplay is on. Pinch gestures are ignored.
- **The newer component** (`src/components/Carousel/Carousel.js`) keeps
  its slide index in a slides state it does not own. The model observes that
  state only through `isMin`/`isMax` and records the calls made on it
  (`calibrateIndex`, `updateIndex`, `goToIndex`) in order. The component's
  own decisions are modelled exactly:
  - the autoplay flag, driven by tab visibility, reduced motion, the media
    button, drags and explicit jumps;
  - maximisation;
  - where the first and last slides are displaced to fake a seamless loop;
  - which inputs become which index change;
  - the transition duration: travel time, then the minimum clamp, then the
    maximum clamp, then the autoplay cap.

Files:

- `common.dfy`: `Option`/`Result`, JavaScript truthiness for `prop || default`, and JavaScript's truncating `%`.
- `slide_index.dfy`: module `SlideIndex`. The original component's padded index, display index, update decision, seam re-basing and modular step.
- `timing.dfy`: module `Timing`. Travel distance and both components' duration rules.
- `legacy_carousel.dfy`: module `LegacyCarousel`. The original component as an event machine over touch, key and autoplay events.
- `playback.dfy`: module `Playback`. The newer component's `isPlaying`/`wasPlaying` pair.
- `navigation.dfy`: module `Navigation`. The newer component's event handling.

Pixel distances and durations are `real`; indices are `int`. The original
component works in seconds (speed in pixels per second). The newer one works
in milliseconds (pixels per millisecond). The two differ only by a constant
factor, and each module keeps its own unit.

Behaviours worth knowing, which the model keeps as the code has them:

- **Hiding the page.** It saves `isPlaying` and showing the page restores the
  saved value. A media-button press made while the page is hidden is
  therefore discarded on return. A second "hidden" notification overwrites
  the saved value with `false`. Autoplay keeps one saved flag, not one pause reason per cause.
- **Loop mode without `infinite`.** It still refuses a move unless
  `cur + change` lies in `[0, length)`. In the padded list that forbids the
  forward seam crossing. It also forbids the forward step onto the last real
  slide, so left-to-right autoplay stalls on the second-to-last image
  (`LegacyCarousel.ForwardMovesNeverReachLastImage`). Any rightward drag on
  the first real slide, however short and whether or not it is released,
  re-bases onto the trailing copy of the first image. A release there snaps
  back or asks for a move back that the update check refuses. In
  left-to-right mode that first slide is the starting slide, so one small
  rightward drag on a freshly opened carousel is enough. The index stays parked on
  the copy, and no input can move it off: the carousel is stuck
  (`LegacyCarousel.RightDragFromFirstParksOnCopy`,
  `LegacyCarousel.NothingLeavesTrailingCopy`). The model keeps this as
  written.
- **Reversed drag in loop and `infinite` mode.** A drag re-bases for the
  direction it is heading at each sample, the release sample included, but
  the index update a swipe commits is never re-based: the update re-bases
  only moves with a zero displacement. Start on the first real slide, drag right (re-based onto the
  trailing copy), swing back past the start and release far enough to the
  left. The forward move then wraps to position 0, which shows the last image
  instead of the second (`LegacyCarousel.ReversedDragFromFirstShowsLastImage`).
  The model keeps this as written.
- **Snap-back on a copy in loop and `infinite` mode.** Start on the last real
  slide and make a short leftward drag: it re-bases onto the leading copy of
  the last image (position 0), and the snap-back leaves the index there. A
  following left arrow is re-based only from position 1, so it wraps from 0
  to the trailing copy, which shows the first image instead of the
  second-to-last (`LegacyCarousel.SnapBackThenLeftShowsFirstImage`). The
  model keeps this as written.
- **Autoplay caps.** The original component caps a too-long duration at
  `0.99 × interval`. The newer one caps it at exactly the interval.
- **Configuration is not rejected.** Neither component rejects it; the newer one's prop-type validators only warn. The newer
  component's only precondition here is a positive `transitionSpeed`, which
  its prop types declare. The original component divides by `speed || 1500`,
  which is never zero.

## Model

| member | source | states |
|---|---|---|
| Common.JsRemainder | src/Carousel/Carousel.js:40-42 | JavaScript's `%`: the remainder carries the dividend's sign, is smaller in magnitude than the divisor, and differs from the dividend by a multiple of the divisor |
| SlideIndex.RenderedShowsDisplayIndex | src/Carousel/Carousel.js:157-169 | with at least one image, the rendered list has `length + 2` positions in loop mode: position 0 shows the last image, `length + 1` the first, and each position shows the image its display index names |
| SlideIndex.InitialIndexShowsEndImage | src/Carousel/Carousel.js:14-20 | the starting index lies in the rendered list and shows the first image (LTR) or the last (RTL); in loop mode it is a real slide, not a copy |
| SlideIndex.UpdateIndex | src/Carousel/Carousel.js:24-43 | a zero change, or a move the update check refuses, leaves the index alone; an update lands in `[0, total)`; it fails (NaN) only for an empty unpadded list; without loop or infinite it lands exactly on `cur + change`; with infinite and no loop it wraps circularly; a loop-mode swipe is not re-based and wraps circularly over the whole padded list; any other loop-mode move, from a copy too, is re-based across the seam and then wraps circularly |
| SlideIndex.LoopMoveStaysOnRealSlides | src/Carousel/Carousel.js:32-42 | in loop mode a non-swipe move of at most one step from a real slide stays on real slides, and the image shown advances circularly by the change |
| SlideIndex.SeamCrossings | src/Carousel/Carousel.js:25-42 | in loop mode, stepping back from position 1 lands on `total - 2`; with infinite, stepping forward from `total - 2` lands on 1 |
| SlideIndex.SeamRebasePreservesImage | src/Carousel/Carousel.js:32-37 | seam re-basing keeps the index in the rendered list and never changes the image on screen |
| Timing.TravelDistance | src/Carousel/Carousel.js:45-48 | the distance is never negative; on an index change it completes one container width with the dragged distance; on a snap-back it equals the dragged distance |
| Timing.LegacyDuration | src/Carousel/Carousel.js:45-54 | the duration is travel over speed unless autoplay is on and that exceeds the interval, then it is `0.99 × interval`; with autoplay it never exceeds a non-negative interval; it is non-negative for positive speed |
| Timing.PlanDuration | src/components/Carousel/Carousel.js:116-139 | no duration under reduced motion; a travel time already within bounds is used unchanged; the result is at most a truthy max and, while playing, at most the interval; it is at least a truthy min that the later bounds allow; a clamped duration equals the min, max or interval that clamped it; max wins over a conflicting min, unless the autoplay cap is lower still |
| LegacyCarousel.SwipeChange | src/Carousel/Carousel.js:66-75 | a drag further right than `width × threshold` gives -1, further left than its negation gives +1, anything else 0 |
| LegacyCarousel.SwipeThresholdIsStrict | src/Carousel/Carousel.js:66-75 | a drag of exactly the threshold distance snaps back; a longer one moves against its own direction |
| LegacyCarousel.UpdateCurrentImageIndex | src/Carousel/Carousel.js:24-62 | the committed index is the index update's; the duration is the legacy duration of the travel that completes the width when the index moves and retraces the drag when it does not; with autoplay the duration never exceeds a non-negative interval, and it is non-negative |
| LegacyCarousel.Step | src/Carousel/Carousel.js:99-126 | a pinch at start, move or end changes nothing and plans nothing; keys other than the two arrows do nothing; a touch start only records its coordinate as the swipe origin; a touch move only re-bases for its direction; ArrowLeft moves by -1 and ArrowRight by +1 without a swipe; a released touch re-bases for its direction, then commits the move its displacement classifies; every arrow press, tick and release plans a duration, which autoplay caps at the interval |
| LegacyCarousel.TickIsArrowKey | src/Carousel/Carousel.js:128-134 | the autoplay tick has exactly the effect of the arrow key of the reading direction |
| LegacyCarousel.DragKeepsImage | src/Carousel/Carousel.js:77-93 | in loop mode a drag that is not released keeps the index in the rendered list and the same image on screen |
| LegacyCarousel.RunStaysInRenderedList | src/Carousel/Carousel.js:24-43 | from an index inside a non-empty padded index range, any sequence of events keeps it inside and never divides by zero; without loop this is `[0, length)` |
| LegacyCarousel.InitialRunStaysInRenderedList | src/Carousel/Carousel.js:14-43 | with at least one image, any sequence of events from the starting index keeps the index inside the rendered list and never divides by zero |
| LegacyCarousel.LoopKeysStayOnRealSlides | src/Carousel/Carousel.js:99-105 | in loop mode any sequence of key presses and ticks keeps the index on real slides, off the two copies |
| LegacyCarousel.ForwardMovesNeverReachLastImage | src/Carousel/Carousel.js:25-29 | in loop mode without infinite, left-to-right ticks and right-arrow presses from a real slide before the last one stay in `[1, length - 1]` and never show the last image |
| LegacyCarousel.RightDragFromFirstParksOnCopy | src/Carousel/Carousel.js:77-91 | in loop mode without infinite, any rightward drag sample from position 1 moves the index to the trailing copy `total - 1`, and a rightward release leaves it there (the move back is refused by the `imagesLength` bound at lines 25-29) |
| LegacyCarousel.NothingLeavesTrailingCopy | src/Carousel/Carousel.js:24-29 | in loop mode without infinite and with at least one image, no sequence of events of any kind moves the index off the trailing copy |
| LegacyCarousel.ReversedDragFromFirstShowsLastImage | src/Carousel/Carousel.js:77-93 | in loop and infinite mode, a drag from position 1 that first heads right and is released past the threshold to the left lands on position 0, which shows the last image |
| LegacyCarousel.SnapBackThenLeftShowsFirstImage | src/Carousel/Carousel.js:32-42 | in loop and infinite mode, from the last real slide a short leftward drag snaps back onto position 0, and a left arrow then lands on the trailing copy, which shows the first image |
| LegacyCarousel.ForwardTwiceFromLastImage | src/Carousel/Carousel.js:32-42 | with five images, loop and infinite, two forward moves from the last image cross the seam and show the second image |
| LegacyCarousel.DefaultThresholdExample | src/Carousel/Carousel.js:11-11 | with the default threshold 0.1 and a 300-pixel container, a 25-pixel leftward drag snaps back and a 40-pixel one moves forward |
| Playback.HideThenShowRestores | src/components/Carousel/Carousel.js:86-96 | hiding stops playing; hiding then showing restores the playing flag |
| Playback.ToggleWhileHiddenIsDiscarded | src/components/Carousel/Carousel.js:77-96 | a media-button press while hidden is undone on return; the flag saved at hiding time wins |
| Playback.RepeatedHideForgetsPlaying | src/components/Carousel/Carousel.js:86-96 | two hidden notifications in a row save `false`, so showing the page does not resume |
| Playback.MediaButtonTwiceIsIdentity | src/components/Carousel/Carousel.js:77-79 | the media button always flips the flag and is its own inverse |
| Navigation.PlaceEndsOnUpdate | src/components/Carousel/Carousel.js:202-215 | only with loop, more than one slide, both end slides mounted and a non-zero change: at min going back the first slide moves past the end, at max going forward the last slide moves before the start, otherwise both return; at most one is displaced |
| Navigation.PlaceEndsOnDrag | src/components/Carousel/Carousel.js:186-200 | a drag sample moves at most one end slide: a mounted last slide goes before the start on a rightward drag at min, otherwise a mounted first slide goes past the end on a leftward drag at max, and nothing else moves; unmounted slides stay untouched |
| Navigation.UpdateIndex | src/components/Carousel/Carousel.js:202-224 | the slides state is calibrated only for a non-zero change, then updated once, last, with that change; the duration is planned as index-changing exactly when the change is non-zero; only the end slides change |
| Navigation.IndexRequest | src/components/Carousel/Carousel.js:235-293 | every request is a change in `[-1, 1]`; snap-backs come only from a disqualified swipe, orientation change or swipe down; swipe endings carry their displacement; drags, clicks, visibility, motion, media, size and jumps request nothing |
| Navigation.ClickMaximized | src/components/Carousel/Carousel.js:277-282 | a click minimises when maximised and allowed, maximises when minimised and allowed, and otherwise leaves maximisation alone |
| Navigation.Step | src/components/Carousel/Carousel.js:77-293 | drags, jumps, hiding and reduced motion stop autoplay; the media button flips it; other events keep it, and lifting reduced motion does not resume it; only hiding saves the flag; only the preference event changes the reduced-motion flag; Escape and an allowed swipe down minimise, the size button toggles; a click sets maximisation as `ClickMaximized` decides; a jump calls only `goToIndex`; an index request's change and displacement determine the planned duration and the end-slide placement; events with no index request make no call and plan no duration; a jump plans none either; a drag sample places the end slides as `PlaceEndsOnDrag` decides, and no other event without an index request moves them; a disallowed swipe down changes nothing; end slides stay well placed |
| Navigation.InputsRequestChanges | src/components/Carousel/Carousel.js:256-261 | ArrowLeft calibrates and updates by -1, ArrowRight by +1, and the tick by -1 in RTL and +1 otherwise |
| Navigation.SwipesRequestChanges | src/components/Carousel/Carousel.js:284-293 | a rightward swipe end moves by -1 and a leftward one by +1; a disqualified swipe, the orientation change and an allowed swipe down only update by 0 |
| Navigation.TickIsArrowKey | src/components/Carousel/Carousel.js:71-75 | the autoplay tick has exactly the effect of the arrow key of the reading direction |
| Navigation.RollbackIsZeroSnapBack | src/components/Carousel/Carousel.js:235-237 | the orientation rollback equals a disqualified swipe of zero pixels, leaves the end slides alone, and plans a zero duration when zero is within the bounds |
| Navigation.ReducedMotionPlansNothing | src/components/Carousel/Carousel.js:116-118 | under reduced motion no event writes a duration, except one that changes the preference |
| Navigation.DefaultTickTiming | src/components/Carousel/Carousel.js:461-484 | with the default props a tick moves forward by one; unless motion is reduced, its duration is the travel time at 1 pixel per millisecond, and at most 5000 ms while playing |
| Navigation.RunKeepsEndsWellPlaced | src/components/Carousel/Carousel.js:188-215 | over any sequence of events the first slide is never drawn before the start and the last never past the end |
| Navigation.InitialUnderReducedMotion | src/components/Carousel/Carousel.js:71-84 | a carousel opened under reduced motion does not play and records the preference; otherwise it starts with the timer's starting flag |
| Navigation.HideThenShowRestoresPlaying | src/components/Carousel/Carousel.js:86-102 | a hidden notification followed by a visible one restores the playing flag |

## Left out

- The internals of `useSlides` are not part of this model: its index arithmetic, `calibrateIndex`, `updateIndex`, `goToIndex`, `canUpdateIndex` and the display index. The model records the calls instead, and `isMin`/`isMax` are inputs.
- `useSwipe` classifies drags into swipe endings. It is not part of this model, so those endings are inputs.
- `useTimer`, `useKeys`, `useMediaQuery`, `useFixedPosition`, `useEventListener` and the validators are not part of this model either. The timer's starting flag and the media query's starting value are parameters of `Navigation.Initial`. Ticks, key presses, visibility, orientation and preference changes are events.
- Timers and side effects are not modelled: `setInterval`, the `setTimeout` that clears a duration, DOM style writes and CSS transform strings. Only the computed values are modelled.
- `applyTransitionY` and `handleSwipeMoveDown` are not modelled. They only compute visual floating-point effects (scale and opacity).
- Also not modelled: `handlePointerEnter` focus, `applyCurIndexUpdate`/`onIndexChange` reporting, JSX, widgets, thumbnails, class names and the remaining prop types. They are UI glue.
- React's asynchronous state updates and stale closures are not modelled: each event is applied sequentially to the latest state.
- IEEE floating point is not modelled: distances and durations are exact reals.
- Navigation.Step: requires a positive `transitionSpeed`, as the prop types declare. With zero speed the source would compute an infinite duration.
- Navigation.UpdateIndex: requires a positive `transitionSpeed` for the same reason.
- Timing.PlanDuration: requires a positive `transitionSpeed` for the same reason.

=== FILE: common.dfy ===
/** Small vocabulary shared by both carousel models: optional values, error
    results, and the few JavaScript number semantics the components rely on. */
module Common {

  /** An optional value; a prop that may be `undefined`. */
  datatype Option<+T> = None | Some(value: T)

  /** A value, or the reason the computation has no meaningful value. */
  datatype Result<+T, +E> = Ok(value: T) | Err(error: E)

  /** JavaScript truthiness of an optional number: `undefined` and `0` are falsy. */
  predicate Truthy(p: Option<real>) {
    p.Some? && p.value != 0.0
  }

  /** The value of `p || fallback` for an optional number `p`. */
  function OrDefault(p: Option<real>, fallback: real): (r: real)
    ensures fallback != 0.0 ==> r != 0.0
  {
    if Truthy(p) then p.value else fallback
  }

  function Abs(x: int): nat {
    if x < 0 then -x else x
  }

  function RealAbs(x: real): real {
    if x < 0.0 then -x else x
  }

  /** JavaScript's `%` on integers: the remainder of division truncated toward
      zero, so it carries the sign of the dividend (Dafny's `%` never does). */
  function JsRemainder(a: int, n: int): (r: int)
    requires n != 0
    ensures Abs(r) < Abs(n)
    ensures a >= 0 ==> r >= 0
    ensures a <= 0 ==> r <= 0
    ensures (a - r) % Abs(n) == 0
  {
    var m := Abs(n);
    var r := if a >= 0 then a % m else -((-a) % m);
    assert a - r == m * (if a >= 0 then a / m else -((-a) / m));
    MultipleHasNoRemainder(m, if a >= 0 then a / m else -((-a) / m));
    r
  }

  lemma MultipleHasNoRemainder(m: int, q: int)
    requires m > 0
    ensures (m * q) % m == 0
  {
    var x := m * q;
    var k := q - x / m;
    assert x == m * (x / m) + x % m;
    assert m * k == m * q - m * (x / m);
    assert m * k == x % m;
    if k > 0 {
      ProductAtLeastFactor(m, k);
    }
  }

  lemma {:induction false} ProductAtLeastFactor(m: int, k: int)
    requires m > 0 && k > 0
    ensures m * k >= m
    decreases k
  {
    if k > 1 {
      ProductAtLeastFactor(m, k - 1);
      assert m * k == m * (k - 1) + m;
    }
  }
}

=== FILE: legacy_carousel.dfy ===
/** The original carousel component as an event machine: touch gestures, the
    arrow keys and the autoplay tick move the padded index of `SlideIndex`,
    and every committed move plans a transition duration. */
module LegacyCarousel {
  import opened Common
  import opened SlideIndex
  import Timing

  /** Fallbacks for falsy props. */
  const DefaultSpeed: real := 1500.0     // pixels per second
  const DefaultThreshold: real := 0.1    // fraction of the container width
  const DefaultInterval: real := 5.0     // seconds

  /** The component's props that the navigation reads. */
  datatype Settings = Settings(layout: Layout, auto: bool,
                               speed: Option<real>, threshold: Option<real>, interval: Option<real>)

  function TransitionSpeed(s: Settings): real { OrDefault(s.speed, DefaultSpeed) }
  function SwipeFraction(s: Settings): real { OrDefault(s.threshold, DefaultThreshold) }
  function AutoPlayInterval(s: Settings): real { OrDefault(s.interval, DefaultInterval) }

  /** The two mutable variables of the component: the padded index and the
      horizontal coordinate where the current touch started. */
  datatype State = State(cur: int, swipeStartX: real)

  /** One touch sample: the gesture's `scale` (absent on plain touches) and the
      horizontal coordinate of the touch point. */
  datatype Touch = Touch(scale: Option<real>, clientX: real)

  datatype Event =
    | TouchStart(touch: Touch)
    | TouchMove(touch: Touch)
    | TouchEnd(touch: Touch)
    | KeyDown(key: string)
    | AutoPlayTick

  /** The state after an event and, when the event committed a move (possibly
      a snap-back), the duration planned for its animation, in seconds. */
  datatype Effect = Effect(state: State, duration: Option<real>)

  /** The index a move committed and the duration planned for its animation. */
  datatype Transition = Transition(index: int, duration: real)

  function Initial(s: Settings): State {
    State(InitialIndex(s.layout), 0.0)
  }

  /** A multi-finger gesture: a scale is reported and differs from 1. */
  predicate IsPinch(t: Touch) {
    t.scale.Some? && t.scale.value != 1.0
  }

  /** Classifies a finished drag against `minDistance = width * fraction`:
      a rightward drag beyond it goes back one slide, a leftward drag beyond it
      goes forward one, and anything else snaps back. */
  function SwipeChange(width: real, fraction: real, displacement: real): (change: int)
    ensures -1 <= change <= 1
    ensures change == -1 <==> displacement > width * fraction
    ensures change == 1 <==> !(displacement > width * fraction) && displacement < -(width * fraction)
  {
    var minDistance := width * fraction;
    if displacement > minDistance then -1
    else if displacement < -minDistance then 1
    else 0
  }

  /** The comparisons are strict: a drag of exactly the threshold distance, in
      either direction, snaps back, and any longer drag commits a move against
      the drag's direction. */
  lemma SwipeThresholdIsStrict(width: real, fraction: real, displacement: real)
    requires width * fraction >= 0.0
    ensures RealAbs(displacement) <= width * fraction ==> SwipeChange(width, fraction, displacement) == 0
    ensures RealAbs(displacement) > width * fraction ==>
              SwipeChange(width, fraction, displacement) == if displacement > 0.0 then -1 else 1
  {
  }

  /** `updateCurrentImageIndex`: the index update followed by the duration of
      the animation, whether or not the index moved. */
  function UpdateCurrentImageIndex(s: Settings, width: real, cur: int, change: int, swiped: real)
    : (r: Result<Transition, IndexError>)
    ensures r.Ok? <==> UpdateIndex(s.layout, cur, change, swiped).Ok?
    ensures r.Ok? ==> r.value.index == UpdateIndex(s.layout, cur, change, swiped).value
    // the travel is the rest of the width when the index moves, the dragged distance otherwise
    ensures r.Ok? ==> r.value.duration == Timing.LegacyDuration(TransitionSpeed(s), s.auto, AutoPlayInterval(s),
                                                                width, swiped, HasToUpdate(s.layout, cur, change))
    ensures r.Ok? && s.auto && AutoPlayInterval(s) >= 0.0 ==> r.value.duration <= AutoPlayInterval(s)
    ensures r.Ok? && TransitionSpeed(s) > 0.0 && (s.auto ==> AutoPlayInterval(s) >= 0.0) ==>
              r.value.duration >= 0.0
  {
    match UpdateIndex(s.layout, cur, change, swiped)
    case Err(e) => Err(e)
    case Ok(next) =>
      var duration := Timing.LegacyDuration(TransitionSpeed(s), s.auto, AutoPlayInterval(s), width, swiped,
                                            HasToUpdate(s.layout, cur, change));
      Ok(Transition(next, duration))
  }

  /** A committed move from state `st`; the touch start coordinate is kept. */
  function Move(s: Settings, width: real, st: State, change: int, swiped: real): Result<Effect, IndexError> {
    match UpdateCurrentImageIndex(s, width, st.cur, change, swiped)
    case Err(e) => Err(e)
    case Ok(t) => Ok(Effect(st.(cur := t.index), Some(t.duration)))
  }

  /** During a drag in loop mode the index is re-based across the seam the drag
      is heading for: a rightward drag reveals the previous slide. */
  function DragRebase(l: Layout, cur: int, displacement: real): int {
    if l.loop then SeamRebase(l, cur, if displacement > 0.0 then -1 else if displacement < 0.0 then 1 else 0)
    else cur
  }

  /** `showSwipe`: follow the finger; on the final sample classify the drag. */
  function ShowSwipe(s: Settings, width: real, st: State, clientX: real, ending: bool): Result<Effect, IndexError> {
    var displacement := clientX - st.swipeStartX;
    var rebased := st.(cur := DragRebase(s.layout, st.cur, displacement));
    if ending then Move(s, width, rebased, SwipeChange(width, SwipeFraction(s), displacement), displacement)
    else Ok(Effect(rebased, None))
  }

  function Step(s: Settings, width: real, st: State, e: Event): (r: Result<Effect, IndexError>)
    // pinch gestures are ignored at every phase
    ensures (e.TouchStart? || e.TouchMove? || e.TouchEnd?) && IsPinch(e.touch) ==> r == Ok(Effect(st, None))
    // only key presses and the autoplay tick are routed to the index update; other keys do nothing
    ensures e.KeyDown? && e.key != "ArrowLeft" && e.key != "ArrowRight" ==> r == Ok(Effect(st, None))
    // a touch start only records where the touch began
    ensures e.TouchStart? ==> r.Ok? && r.value.state.cur == st.cur && r.value.duration.None?
    ensures e.TouchStart? && !IsPinch(e.touch) ==> r == Ok(Effect(st.(swipeStartX := e.touch.clientX), None))
    // a touch move only re-bases for the drag's direction
    ensures e.TouchMove? && !IsPinch(e.touch) ==>
              r == Ok(Effect(st.(cur := DragRebase(s.layout, st.cur, e.touch.clientX - st.swipeStartX)), None))
    // the arrow keys move one slide back or forward, unswiped
    ensures e == KeyDown("ArrowLeft") ==> r == Move(s, width, st, -1, 0.0)
    ensures e == KeyDown("ArrowRight") ==> r == Move(s, width, st, 1, 0.0)
    // every committed move, a snap-back included, plans a duration, capped with autoplay on
    ensures r.Ok? && (|| e.AutoPlayTick? || e == KeyDown("ArrowLeft") || e == KeyDown("ArrowRight")
                      || (e.TouchEnd? && !IsPinch(e.touch))) ==>
              r.value.duration.Some?
    ensures r.Ok? && r.value.duration.Some? && s.auto && AutoPlayInterval(s) >= 0.0 ==>
              r.value.duration.value <= AutoPlayInterval(s)
    // releasing a touch re-bases for the drag's direction and commits the classified move
    ensures e.TouchEnd? && !IsPinch(e.touch) ==>
              var d := e.touch.clientX - st.swipeStartX;
              r == Move(s, width, st.(cur := DragRebase(s.layout, st.cur, d)), SwipeChange(width, SwipeFraction(s), d), d)
  {
    match e
    case TouchStart(t) =>
      if IsPinch(t) then Ok(Effect(st, None)) else Ok(Effect(st.(swipeStartX := t.clientX), None))
    case TouchMove(t) =>
      if IsPinch(t) then Ok(Effect(st, None)) else ShowSwipe(s, width, st, t.clientX, false)
    case TouchEnd(t) =>
      if IsPinch(t) then Ok(Effect(st, None)) else ShowSwipe(s, width, st, t.clientX, true)
    case KeyDown(key) =>
      if key == "ArrowLeft" then Move(s, width, st, -1, 0.0)
      else if key == "ArrowRight" then Move(s, width, st, 1, 0.0)
      else Ok(Effect(st, None))
    case AutoPlayTick =>
      Move(s, width, st, if s.layout.rtl then -1 else 1, 0.0)
  }

  /** The autoplay tick is the arrow key of the reading direction. */
  lemma TickIsArrowKey(s: Settings, width: real, st: State)
    ensures Step(s, width, st, AutoPlayTick)
            == Step(s, width, st, KeyDown(if s.layout.rtl then "ArrowLeft" else "ArrowRight"))
  {
  }

  /** A drag that has not been released never changes the image on screen: it
      can only re-base the index across the seam. */
  lemma DragKeepsImage<T>(s: Settings, width: real, st: State, t: Touch, images: seq<T>)
    requires s.layout.loop && |images| == s.layout.length >= 1
    requires 0 <= st.cur < TotalLength(s.layout)
    ensures Step(s, width, st, TouchMove(t)).Ok?
    ensures var next := Step(s, width, st, TouchMove(t)).value.state.cur;
            && 0 <= next < TotalLength(s.layout)
            && Rendered(images, true)[next] == Rendered(images, true)[st.cur]
  {
    var displacement := t.clientX - st.swipeStartX;
    var dir := if displacement > 0.0 then -1 else if displacement < 0.0 then 1 else 0;
    SeamRebasePreservesImage(s.layout, images, st.cur, dir);
  }

  /** Feeds a sequence of events to the component, in order, each with the
      container width measured when it arrives. */
  function Run(s: Settings, st: State, inputs: seq<(real, Event)>): Result<State, IndexError>
    decreases |inputs|
  {
    if |inputs| == 0 then Ok(st)
    else
      match Step(s, inputs[0].0, st, inputs[0].1)
      case Err(e) => Err(e)
      case Ok(eff) => Run(s, eff.state, inputs[1..])
  }

  /** One event keeps the index inside the rendered list. */
  lemma StepStaysInRenderedList(s: Settings, width: real, st: State, e: Event)
    requires TotalLength(s.layout) > 0
    requires 0 <= st.cur < TotalLength(s.layout)
    ensures Step(s, width, st, e).Ok?
    ensures 0 <= Step(s, width, st, e).value.state.cur < TotalLength(s.layout)
  {
    if (e.TouchMove? || e.TouchEnd?) && !IsPinch(e.touch) {
      var displacement := e.touch.clientX - st.swipeStartX;
      var rebased := DragRebase(s.layout, st.cur, displacement);
      assert 0 <= rebased < TotalLength(s.layout);
    }
  }

  /** Whatever the inputs, an index that starts inside the rendered list stays
      inside it and no update hits the remainder-by-zero case; without loop and
      without `infinite` this is the range `[0, length)` of real images. */
  lemma {:induction false} RunStaysInRenderedList(s: Settings, st: State, inputs: seq<(real, Event)>)
    requires TotalLength(s.layout) > 0
    requires 0 <= st.cur < TotalLength(s.layout)
    ensures Run(s, st, inputs).Ok?
    ensures 0 <= Run(s, st, inputs).value.cur < TotalLength(s.layout)
    decreases |inputs|
  {
    if |inputs| > 0 {
      StepStaysInRenderedList(s, inputs[0].0, st, inputs[0].1);
      RunStaysInRenderedList(s, Step(s, inputs[0].0, st, inputs[0].1).value.state, inputs[1..]);
    }
  }

  /** From the starting position of a carousel with at least one image, any
      sequence of events stays inside the rendered list. */
  lemma InitialRunStaysInRenderedList(s: Settings, inputs: seq<(real, Event)>)
    requires s.layout.length >= 1
    ensures Run(s, Initial(s), inputs).Ok?
    ensures 0 <= Run(s, Initial(s), inputs).value.cur < TotalLength(s.layout)
  {
    InitialIndexShowsEndImage(s.layout);
    RunStaysInRenderedList(s, Initial(s), inputs);
  }

  /** Only keys and ticks: nothing re-bases with a non-zero displacement. */
  predicate NonSwipe(e: Event) {
    e.KeyDown? || e.AutoPlayTick?
  }

  /** In loop mode, keys and autoplay ticks alone keep the index on real slides,
      never on one of the two copies. */
  lemma {:induction false} LoopKeysStayOnRealSlides(s: Settings, st: State, inputs: seq<(real, Event)>)
    requires s.layout.loop && s.layout.length >= 1
    requires 1 <= st.cur <= TotalLength(s.layout) - 2
    requires forall i :: 0 <= i < |inputs| ==> NonSwipe(inputs[i].1)
    ensures Run(s, st, inputs).Ok?
    ensures 1 <= Run(s, st, inputs).value.cur <= TotalLength(s.layout) - 2
    decreases |inputs|
  {
    if |inputs| > 0 {
      var e := inputs[0].1;
      assert NonSwipe(e);
      if e.KeyDown? {
        LoopMoveStaysOnRealSlides(s.layout, st.cur, -1);
        LoopMoveStaysOnRealSlides(s.layout, st.cur, 1);
      } else {
        LoopMoveStaysOnRealSlides(s.layout, st.cur, if s.layout.rtl then -1 else 1);
      }
      var next := Step(s, inputs[0].0, st, e).value.state;
      LoopKeysStayOnRealSlides(s, next, inputs[1..]);
    }
  }

  /** In loop mode without `infinite`, the update check still bounds
      `cur + change` by the image count, so forward moves stop one slide short:
      left-to-right ticks and right-arrow presses from a real slide before the
      last one never bring the last image on screen. */
  lemma {:induction false} ForwardMovesNeverReachLastImage(s: Settings, st: State, inputs: seq<(real, Event)>)
    requires s.layout.loop && !s.layout.infinite && !s.layout.rtl && s.layout.length >= 2
    requires 1 <= st.cur <= s.layout.length - 1
    requires forall i :: 0 <= i < |inputs| ==> inputs[i].1 == AutoPlayTick || inputs[i].1 == KeyDown("ArrowRight")
    ensures Run(s, st, inputs).Ok?
    ensures 1 <= Run(s, st, inputs).value.cur <= s.layout.length - 1
    ensures DisplayIndex(s.layout, Run(s, st, inputs).value.cur) != s.layout.length - 1
    decreases |inputs|
  {
    if |inputs| > 0 {
      var next := Step(s, inputs[0].0, st, inputs[0].1).value.state;
      assert next.cur == (if st.cur + 1 < s.layout.length then st.cur + 1 else st.cur) by {
        LoopMoveStaysOnRealSlides(s.layout, st.cur, 1);
      }
      ForwardMovesNeverReachLastImage(s, next, inputs[1..]);
    }
  }

  /** In loop mode without `infinite`, any rightward drag sample on the first
      real slide, however short, re-bases onto the trailing copy of the first
      image; a release there is either a snap-back or a move back that the
      update check refuses, so the index stays on the copy. */
  lemma RightDragFromFirstParksOnCopy(s: Settings, width: real, swipeStartX: real, t: Touch)
    requires s.layout.loop && !s.layout.infinite && s.layout.length >= 1
    requires !IsPinch(t)
    requires t.clientX - swipeStartX > 0.0
    ensures Step(s, width, State(1, swipeStartX), TouchMove(t)) == Ok(Effect(State(TotalLength(s.layout) - 1, swipeStartX), None))
    ensures Step(s, width, State(1, swipeStartX), TouchEnd(t)).Ok?
    ensures Step(s, width, State(1, swipeStartX), TouchEnd(t)).value.state.cur == TotalLength(s.layout) - 1
    ensures DisplayIndex(s.layout, TotalLength(s.layout) - 1) == 0
  {
  }

  /** Once parked on the trailing copy, no input moves the index off it: a
      drag never re-bases there, and both neighbours fail the `imagesLength`
      bound, so the carousel is stuck. */
  lemma {:induction false} NothingLeavesTrailingCopy(s: Settings, st: State, inputs: seq<(real, Event)>)
    requires s.layout.loop && !s.layout.infinite && s.layout.length >= 1
    requires st.cur == TotalLength(s.layout) - 1
    ensures Run(s, st, inputs).Ok?
    ensures Run(s, st, inputs).value.cur == TotalLength(s.layout) - 1
    decreases |inputs|
  {
    if |inputs| > 0 {
      var next := Step(s, inputs[0].0, st, inputs[0].1).value.state;
      assert next.cur == st.cur;
      NothingLeavesTrailingCopy(s, next, inputs[1..]);
    }
  }

  /** In loop and `infinite` mode, starting on the last real slide, a short
      leftward drag re-bases onto the leading copy of the last image and snaps
      back there; a following left arrow is not re-based from the copy and
      wraps to the trailing copy, which shows the first image instead of the
      second-to-last. */
  lemma SnapBackThenLeftShowsFirstImage(s: Settings, width: real, swipeStartX: real, over: Touch, release: Touch)
    requires s.layout.loop && s.layout.infinite && s.layout.length >= 1
    requires !IsPinch(over) && !IsPinch(release)
    requires over.clientX < swipeStartX
    requires var d := release.clientX - swipeStartX;
             -(width * SwipeFraction(s)) <= d <= width * SwipeFraction(s)
    ensures var total := TotalLength(s.layout);
            Run(s, State(total - 2, swipeStartX),
                [(width, TouchMove(over)), (width, TouchEnd(release)), (width, KeyDown("ArrowLeft"))])
            == Ok(State(total - 1, swipeStartX))
    ensures DisplayIndex(s.layout, TotalLength(s.layout) - 1) == 0
  {
    var total := TotalLength(s.layout);
    var inputs := [(width, TouchMove(over)), (width, TouchEnd(release)), (width, KeyDown("ArrowLeft"))];
    var onCopy := State(0, swipeStartX);
    assert Step(s, width, State(total - 2, swipeStartX), TouchMove(over)) == Ok(Effect(onCopy, None));
    assert inputs[1..] == [(width, TouchEnd(release)), (width, KeyDown("ArrowLeft"))];
    assert Step(s, width, onCopy, TouchEnd(release)).value.state == onCopy;
    assert inputs[1..][1..] == [(width, KeyDown("ArrowLeft"))];
    assert UpdateIndex(s.layout, 0, -1, 0.0) == Ok(total - 1);
    assert Run(s, onCopy, inputs[1..][1..]) == Ok(State(total - 1, swipeStartX));
  }

  /** In loop and `infinite` mode, a drag that first heads right from the first
      real slide (re-basing onto the trailing copy) and is released far enough
      to the left commits a forward swipe that is not re-based back: the index
      wraps to position 0, which shows the last image rather than the second. */
  lemma ReversedDragFromFirstShowsLastImage(s: Settings, width: real, swipeStartX: real, over: Touch, release: Touch)
    requires s.layout.loop && s.layout.infinite && s.layout.length >= 1
    requires !IsPinch(over) && !IsPinch(release)
    requires over.clientX > swipeStartX
    requires width * SwipeFraction(s) >= 0.0 && release.clientX - swipeStartX < -(width * SwipeFraction(s))
    ensures Run(s, State(1, swipeStartX), [(width, TouchMove(over)), (width, TouchEnd(release))])
            == Ok(State(0, swipeStartX))
    ensures DisplayIndex(s.layout, 0) == s.layout.length - 1
  {
    var total := TotalLength(s.layout);
    var inputs := [(width, TouchMove(over)), (width, TouchEnd(release))];
    var parked := State(total - 1, swipeStartX);
    assert Step(s, width, State(1, swipeStartX), TouchMove(over)) == Ok(Effect(parked, None));
    assert inputs[1..] == [(width, TouchEnd(release))];
    assert UpdateIndex(s.layout, total - 1, 1, release.clientX - swipeStartX) == Ok(0);
    assert Run(s, parked, inputs[1..]) == Ok(State(0, swipeStartX));
  }

  /** Five images, loop and infinite mode, starting on the last image: two
      forward moves cross the seam and land on the second image. */
  lemma ForwardTwiceFromLastImage(width: real)
    ensures var s := Settings(Layout(5, true, false, true), false, None, None, None);
            var inputs := [(width, KeyDown("ArrowRight")), (width, KeyDown("ArrowRight"))];
            && Run(s, State(5, 0.0), inputs).Ok?
            && DisplayIndex(s.layout, Run(s, State(5, 0.0), inputs).value.cur) == 1
  {
    var s := Settings(Layout(5, true, false, true), false, None, None, None);
    var inputs := [(width, KeyDown("ArrowRight")), (width, KeyDown("ArrowRight"))];
    var first := Step(s, width, State(5, 0.0), KeyDown("ArrowRight"));
    assert WrapStep(7, 0, 1) == 1;
    assert first == Ok(Effect(State(1, 0.0), first.value.duration));
    assert WrapStep(7, 1, 1) == 2;
    assert inputs[1..] == [(width, KeyDown("ArrowRight"))];
    assert Run(s, State(1, 0.0), inputs[1..]) == Ok(State(2, 0.0));
  }

  /** A 300-pixel container with the default threshold: a 25-pixel leftward
      drag snaps back, a 40-pixel one moves forward. */
  lemma DefaultThresholdExample()
    ensures SwipeChange(300.0, DefaultThreshold, -25.0) == 0
    ensures SwipeChange(300.0, DefaultThreshold, -40.0) == 1
  {
  }
}

=== FILE: navigation.dfy ===
/** Navigation policy of the newer carousel component.

    The slide index itself lives in a slides state this component does not
    own; it is observed here only through `isMin`/`isMax` and driven through
    the calls the component makes on it (`calibrateIndex`, `updateIndex`,
    `goToIndex`), which an outcome lists in order. What the component decides
    on its own is modelled exactly: the playing flag, maximisation, where the
    first and last slides are displaced to fake a seamless loop, and the
    duration of each transition. */
module Navigation {
  import opened Common
  import opened Playback
  import Timing

  /** Where one end slide is drawn: in its own place, moved past the last
      slide (`translateX(n00%)`), or moved before the first one
      (`translateX(-n00%)`). */
  datatype Offset = InPlace | AfterLast | BeforeFirst

  /** The element of an end slide, which may not be mounted. */
  datatype EndSlide = Unmounted | Mounted(offset: Offset)

  datatype EndSlides = EndSlides(first: EndSlide, last: EndSlide)

  /** What the component reads from the slides state for its decisions. */
  datatype SlidesView = SlidesView(isMin: bool, isMax: bool)

  /** Per-event surroundings: the slides state's bounds and the measured width
      of the slides container in pixels. */
  datatype Env = Env(view: SlidesView, width: real)

  datatype Config = Config(
    isRTL: bool,
    isLoop: bool,
    nSlides: nat,
    timing: Timing.Bounds,
    shouldMaximizeOnClick: bool,
    shouldMinimizeOnClick: bool,
    shouldMinimizeOnSwipeDown: bool)

  /** The component's props at their default values, for `n` slides: loop on,
      1 pixel per millisecond, a 5000 ms autoplay interval, no duration bounds,
      minimise on swipe down only. */
  function DefaultConfig(n: nat): Config {
    Config(false, true, n, Timing.Bounds(1.0, None, None, 5000.0), false, false, true)
  }

  datatype State = State(play: PlayState, isReducedMotion: bool, isMaximized: bool, ends: EndSlides)

  /** The calls made on the slides state. */
  datatype SlidesCall = Calibrate(change: int) | Update(change: int) | JumpTo(index: int)

  /** The state after an event, the calls it made on the slides state, and the
      transition duration it wrote, if any (in milliseconds). */
  datatype Outcome = Outcome(state: State, calls: seq<SlidesCall>, duration: Option<real>)

  datatype Event =
    | KeyDown(key: string)
    | AutoPlayTick
    | SwipeMove(dx: real)
    | SwipeEndRight(displacement: real)
    | SwipeEndLeft(displacement: real)
    | SwipeEndDisqualified(displacement: real)
    | SwipeEndDown
    | Click
    | OrientationChange
    | VisibilityChange(visible: bool)
    | ReducedMotionChange(reduce: bool)
    | MediaButtonClick
    | SizeButtonClick
    | SelectIndex(index: int)

  /** The starting state: the timer hook's starting flag, stopped at once when
      the reduced-motion query already matches. */
  function Initial(startedPlaying: bool, reducedMotion: bool, ends: EndSlides): State {
    State(OnReducedMotion(Playback.Initial(startedPlaying), reducedMotion), reducedMotion, false, ends)
  }

  /** A carousel that opens under reduced motion does not play, whatever the
      timer's starting flag, and plans no transition until the preference is
      lifted. */
  lemma InitialUnderReducedMotion(startedPlaying: bool, ends: EndSlides)
    ensures !Initial(startedPlaying, true, ends).play.isPlaying
    ensures Initial(startedPlaying, true, ends).isReducedMotion
    ensures Initial(startedPlaying, false, ends).play.isPlaying == startedPlaying
  {
  }

  /** One autoplay tick moves one slide in the reading direction. */
  function IndexStep(c: Config): int {
    if c.isRTL then -1 else 1
  }

  /** End slides are displaced only when looping over more than one slide. */
  predicate ShouldCalibrate(c: Config) {
    c.isLoop && c.nSlides > 1
  }

  predicate BothMounted(ends: EndSlides) {
    ends.first.Mounted? && ends.last.Mounted?
  }

  /** The first slide is only ever moved past the end, the last slide only
      before the start. */
  predicate WellPlaced(ends: EndSlides) {
    && (ends.first.Mounted? ==> ends.first.offset != BeforeFirst)
    && (ends.last.Mounted? ==> ends.last.offset != AfterLast)
  }

  /** End-slide placement before an index update: leaving the minimum
      backwards puts the first slide past the end, leaving the maximum forwards
      puts the last slide before the start, any other move puts both back, and
      a zero change leaves them alone. */
  function PlaceEndsOnUpdate(calibrate: bool, view: SlidesView, change: int, ends: EndSlides): (r: EndSlides)
    ensures !calibrate || change == 0 || !BothMounted(ends) ==> r == ends
    ensures calibrate && change != 0 && BothMounted(ends) ==>
              && BothMounted(r)
              && (r.first.offset == AfterLast <==> view.isMin && change < 0)
              && (r.first.offset != AfterLast ==> r.first.offset == InPlace)
              && (r.last.offset == BeforeFirst <==> !(view.isMin && change < 0) && view.isMax && change > 0)
              && (r.last.offset != BeforeFirst ==> r.last.offset == InPlace)
    ensures calibrate && change != 0 && BothMounted(ends) ==>
              r.first.offset == InPlace || r.last.offset == InPlace
    ensures WellPlaced(ends) ==> WellPlaced(r)
  {
    if calibrate && BothMounted(ends) then
      if view.isMin && change < 0 then EndSlides(Mounted(AfterLast), Mounted(InPlace))
      else if view.isMax && change > 0 then EndSlides(Mounted(InPlace), Mounted(BeforeFirst))
      else if change != 0 then EndSlides(Mounted(InPlace), Mounted(InPlace))
      else ends
    else ends
  }

  /** End-slide placement while dragging by `dx` pixels (the change is `-dx`):
      a rightward drag at the minimum draws the last slide before the start, a
      leftward drag at the maximum draws the first slide past the end. */
  function PlaceEndsOnDrag(calibrate: bool, view: SlidesView, dx: real, ends: EndSlides): (r: EndSlides)
    ensures r.first == ends.first || (calibrate && view.isMax && dx < 0.0 && r.first == Mounted(AfterLast))
    ensures r.last == ends.last || (calibrate && view.isMin && dx > 0.0 && r.last == Mounted(BeforeFirst))
    ensures r.first == ends.first || r.last == ends.last
    ensures calibrate && view.isMin && dx > 0.0 && ends.last.Mounted? ==> r.last == Mounted(BeforeFirst)
    ensures calibrate && !(view.isMin && dx > 0.0 && ends.last.Mounted?) && view.isMax && dx < 0.0 && ends.first.Mounted? ==>
              r.first == Mounted(AfterLast)
    ensures r.first.Mounted? == ends.first.Mounted? && r.last.Mounted? == ends.last.Mounted?
    ensures WellPlaced(ends) ==> WellPlaced(r)
  {
    var change := -dx;
    if calibrate then
      if view.isMin && change < 0.0 && ends.last.Mounted? then ends.(last := Mounted(BeforeFirst))
      else if view.isMax && change > 0.0 && ends.first.Mounted? then ends.(first := Mounted(AfterLast))
      else ends
    else ends
  }

  /** `updateIndex(change, swipedDisplacement)`: place the end slides,
      calibrate the slides state only for a real move, update it, and plan the
      transition as index-changing exactly when the change is non-zero. */
  function UpdateIndex(c: Config, env: Env, st: State, change: int, swiped: real): (r: Outcome)
    requires c.timing.speed > 0.0
    ensures |r.calls| >= 1 && r.calls[|r.calls| - 1] == Update(change)
    ensures forall k :: Calibrate(k) in r.calls <==> k == change && change != 0
    ensures forall i :: 0 <= i < |r.calls| ==> !r.calls[i].JumpTo?
    ensures |r.calls| == if change != 0 then 2 else 1
    ensures r.duration == Timing.PlanDuration(c.timing, env.width, swiped, change != 0,
                                              st.play.isPlaying, st.isReducedMotion)
    ensures r.state == st.(ends := PlaceEndsOnUpdate(ShouldCalibrate(c), env.view, change, st.ends))
  {
    var ends := PlaceEndsOnUpdate(ShouldCalibrate(c), env.view, change, st.ends);
    var calibration := if change != 0 then [Calibrate(change)] else [];
    var duration := Timing.PlanDuration(c.timing, env.width, swiped, change != 0,
                                        st.play.isPlaying, st.isReducedMotion);
    Outcome(st.(ends := ends), calibration + [Update(change)], duration)
  }

  /** An index request: the change and the swiped displacement an input hands
      to `updateIndex`. */
  datatype Request = Request(change: int, swiped: real)

  /** Which inputs become index updates: the arrow keys, the autoplay tick,
      the three swipe endings, the orientation change, and a swipe down when
      it is allowed to minimise. */
  function IndexRequest(c: Config, e: Event): (r: Option<Request>)
    ensures r.Some? ==> -1 <= r.value.change <= 1
    ensures r.Some? && r.value.change == 0 ==>
              e.SwipeEndDisqualified? || e.OrientationChange? || e.SwipeEndDown?
    ensures r.Some? && r.value.swiped != 0.0 ==>
              (e.SwipeEndRight? || e.SwipeEndLeft? || e.SwipeEndDisqualified?) && r.value.swiped == e.displacement
    ensures e.SwipeEndRight? || e.SwipeEndLeft? || e.SwipeEndDisqualified? ==>
              r.Some? && r.value.swiped == e.displacement
    ensures (|| e.SwipeMove? || e.Click? || e.VisibilityChange? || e.ReducedMotionChange?
             || e.MediaButtonClick? || e.SizeButtonClick? || e.SelectIndex?) ==> r.None?
  {
    match e
    case KeyDown(key) =>
      if key == "ArrowLeft" then Some(Request(-1, 0.0))
      else if key == "ArrowRight" then Some(Request(1, 0.0))
      else None
    case AutoPlayTick => Some(Request(IndexStep(c), 0.0))
    case SwipeEndRight(d) => Some(Request(-1, d))
    case SwipeEndLeft(d) => Some(Request(1, d))
    case SwipeEndDisqualified(d) => Some(Request(0, d))
    case SwipeEndDown => if c.shouldMinimizeOnSwipeDown then Some(Request(0, 0.0)) else None
    case OrientationChange => Some(Request(0, 0.0))
    case _ => None
  }

  /** A click minimises a maximised carousel or maximises a minimised one,
      each only when the matching option is on. */
  function ClickMaximized(c: Config, isMaximized: bool): (r: bool)
    ensures isMaximized && c.shouldMinimizeOnClick ==> !r
    ensures !isMaximized && c.shouldMaximizeOnClick ==> r
    ensures r != isMaximized ==>
              (isMaximized && c.shouldMinimizeOnClick) || (!isMaximized && c.shouldMaximizeOnClick)
  {
    if isMaximized && c.shouldMinimizeOnClick then false
    else if !isMaximized && c.shouldMaximizeOnClick then true
    else isMaximized
  }

  /** Events that touch the playing flag. */
  predicate AffectsPlay(e: Event) {
    e.SwipeMove? || e.SelectIndex? || e.VisibilityChange? || e.ReducedMotionChange? || e.MediaButtonClick?
  }

  /** Events that touch maximisation. */
  predicate AffectsMaximized(e: Event) {
    e.Click? || e.SizeButtonClick? || e.SwipeEndDown? || (e.KeyDown? && e.key == "Escape")
  }

  /** The effects of an event on the component's own state, before any index
      update it requests. */
  function Prepare(c: Config, view: SlidesView, st: State, e: Event): State {
    match e
    case KeyDown(key) => if key == "Escape" then st.(isMaximized := false) else st
    case SwipeMove(dx) =>
      st.(play := Pause(st.play), ends := PlaceEndsOnDrag(ShouldCalibrate(c), view, dx, st.ends))
    case SwipeEndDown => if c.shouldMinimizeOnSwipeDown then st.(isMaximized := false) else st
    case Click => st.(isMaximized := ClickMaximized(c, st.isMaximized))
    case VisibilityChange(visible) => st.(play := OnVisibilityChange(st.play, visible))
    case ReducedMotionChange(reduce) =>
      st.(isReducedMotion := reduce, play := OnReducedMotion(st.play, reduce))
    case MediaButtonClick => st.(play := OnMediaButton(st.play))
    case SizeButtonClick => st.(isMaximized := !st.isMaximized)
    case SelectIndex(_) => st.(play := Pause(st.play))
    case _ => st
  }

  /** One input event handled by the component. */
  function Step(c: Config, env: Env, st: State, e: Event): (r: Outcome)
    requires c.timing.speed > 0.0
    // dragging, jumping, hiding the page and reduced motion all stop autoplay
    ensures (|| e.SwipeMove? || e.SelectIndex? || (e.VisibilityChange? && !e.visible)
             || (e.ReducedMotionChange? && e.reduce)) ==> !r.state.play.isPlaying
    ensures e.MediaButtonClick? ==> r.state.play.isPlaying != st.play.isPlaying
    ensures !AffectsPlay(e) ==> r.state.play == st.play
    // maximisation
    ensures (e.KeyDown? && e.key == "Escape") || (e.SwipeEndDown? && c.shouldMinimizeOnSwipeDown) ==>
              !r.state.isMaximized
    ensures e.SizeButtonClick? ==> r.state.isMaximized != st.isMaximized
    ensures !AffectsMaximized(e) ==> r.state.isMaximized == st.isMaximized
    ensures e.Click? ==> r.state.isMaximized == ClickMaximized(c, st.isMaximized)
    // calls on the slides state
    ensures e.SelectIndex? ==> r.calls == [JumpTo(e.index)]
    ensures IndexRequest(c, e).None? && !e.SelectIndex? ==> r.calls == [] && r.duration.None?
    // an index request's direction and displacement reach the planned duration and the end slides
    ensures IndexRequest(c, e).Some? ==>
              && r.duration == Timing.PlanDuration(c.timing, env.width, IndexRequest(c, e).value.swiped,
                                                   IndexRequest(c, e).value.change != 0,
                                                   st.play.isPlaying, st.isReducedMotion)
              && r.state.ends == PlaceEndsOnUpdate(ShouldCalibrate(c), env.view, IndexRequest(c, e).value.change, st.ends)
    ensures WellPlaced(st.ends) ==> WellPlaced(r.state.ends)
    // a drag sample places the end slides; nothing else without an index request moves them
    ensures e.SwipeMove? ==> r.state.ends == PlaceEndsOnDrag(ShouldCalibrate(c), env.view, e.dx, st.ends)
    ensures IndexRequest(c, e).None? && !e.SwipeMove? ==> r.state.ends == st.ends
    // a jump plans no transition of its own
    ensures e.SelectIndex? ==> r.duration.None?
    // reduced motion: only the preference event records it, and lifting it does not resume playing
    ensures r.state.isReducedMotion == if e.ReducedMotionChange? then e.reduce else st.isReducedMotion
    ensures e.ReducedMotionChange? && !e.reduce ==> r.state.play == st.play
    // only hiding the page saves the playing flag
    ensures !(e.VisibilityChange? && !e.visible) ==> r.state.play.wasPlaying == st.play.wasPlaying
    ensures e.SwipeEndDown? && !c.shouldMinimizeOnSwipeDown ==> r == Outcome(st, [], None)
  {
    var prepared := Prepare(c, env.view, st, e);
    match IndexRequest(c, e)
    case Some(rq) => UpdateIndex(c, env, prepared, rq.change, rq.swiped)
    case None =>
      if e.SelectIndex? then Outcome(prepared, [JumpTo(e.index)], None)
      else Outcome(prepared, [], None)
  }

  /** Every index-moving input makes its update with the change its direction
      calls for: left arrow and rightward swipe go back, right arrow and
      leftward swipe go forward, the tick follows the reading direction, and
      the rest snap back with no calibration. */
  lemma InputsRequestChanges(c: Config, env: Env, st: State)
    requires c.timing.speed > 0.0
    ensures Step(c, env, st, KeyDown("ArrowLeft")).calls == [Calibrate(-1), Update(-1)]
    ensures Step(c, env, st, KeyDown("ArrowRight")).calls == [Calibrate(1), Update(1)]
    ensures Step(c, env, st, AutoPlayTick).calls == [Calibrate(IndexStep(c)), Update(IndexStep(c))]
  {
    assert "ArrowRight" != "ArrowLeft" by { assert "ArrowRight"[5] != "ArrowLeft"[5]; }
  }

  /** Swipe endings: a rightward swipe goes back, a leftward one forward, a
      disqualified one snaps back with no calibration, and so do the
      orientation change and an allowed swipe down. */
  lemma SwipesRequestChanges(c: Config, env: Env, st: State, d: real)
    requires c.timing.speed > 0.0
    ensures Step(c, env, st, SwipeEndRight(d)).calls == [Calibrate(-1), Update(-1)]
    ensures Step(c, env, st, SwipeEndLeft(d)).calls == [Calibrate(1), Update(1)]
    ensures Step(c, env, st, SwipeEndDisqualified(d)).calls == [Update(0)]
    ensures Step(c, env, st, OrientationChange).calls == [Update(0)]
    ensures c.shouldMinimizeOnSwipeDown ==> Step(c, env, st, SwipeEndDown).calls == [Update(0)]
  {
    assert Step(c, env, st, SwipeEndRight(d)) == UpdateIndex(c, env, Prepare(c, env.view, st, SwipeEndRight(d)), -1, d);
    assert Step(c, env, st, SwipeEndLeft(d)) == UpdateIndex(c, env, Prepare(c, env.view, st, SwipeEndLeft(d)), 1, d);
  }

  /** The autoplay tick behaves exactly like the arrow key of the reading
      direction. */
  lemma TickIsArrowKey(c: Config, env: Env, st: State)
    requires c.timing.speed > 0.0
    ensures Step(c, env, st, AutoPlayTick) == Step(c, env, st, KeyDown(if c.isRTL then "ArrowLeft" else "ArrowRight"))
  {
  }

  /** Rolling back after an orientation change is a snap-back of a swipe that
      covered no distance; it plans a
      transition of zero length when zero is within every active bound (and
      motion is not reduced). */
  lemma RollbackIsZeroSnapBack(c: Config, env: Env, st: State)
    requires c.timing.speed > 0.0
    ensures Step(c, env, st, OrientationChange) == Step(c, env, st, SwipeEndDisqualified(0.0))
    ensures Step(c, env, st, OrientationChange).state.ends == st.ends
    ensures !st.isReducedMotion && Timing.WithinBounds(c.timing, 0.0, st.play.isPlaying) ==>
              Step(c, env, st, OrientationChange).duration == Some(0.0)
  {
  }

  /** Under reduced motion no event writes a transition duration, except the
      one that lifts the preference. */
  lemma ReducedMotionPlansNothing(c: Config, env: Env, st: State, e: Event)
    requires c.timing.speed > 0.0
    requires st.isReducedMotion && !e.ReducedMotionChange?
    ensures Step(c, env, st, e).duration.None?
  {
  }

  /** With the default props an autoplay tick moves one slide forward; its
      transition takes the travel time at 1 pixel per millisecond, cut to the
      5000 ms interval while playing. */
  lemma DefaultTickTiming(n: nat, env: Env, st: State)
    ensures Step(DefaultConfig(n), env, st, AutoPlayTick).calls == [Calibrate(1), Update(1)]
    ensures !st.isReducedMotion && !st.play.isPlaying ==>
              Step(DefaultConfig(n), env, st, AutoPlayTick).duration == Some(Timing.TravelDistance(env.width, 0.0, true))
    ensures !st.isReducedMotion && st.play.isPlaying ==>
              && Step(DefaultConfig(n), env, st, AutoPlayTick).duration.Some?
              && Step(DefaultConfig(n), env, st, AutoPlayTick).duration.value <= 5000.0
  {
  }

  /** Feeds a sequence of events, each with its own surroundings. */
  function Run(c: Config, st: State, inputs: seq<(Env, Event)>): State
    requires c.timing.speed > 0.0
    decreases |inputs|
  {
    if |inputs| == 0 then st
    else Run(c, Step(c, inputs[0].0, st, inputs[0].1).state, inputs[1..])
  }

  /** Whatever the inputs, the first slide is never drawn before the start
      and the last slide never past the end. */
  lemma {:induction false} RunKeepsEndsWellPlaced(c: Config, st: State, inputs: seq<(Env, Event)>)
    requires c.timing.speed > 0.0
    requires WellPlaced(st.ends)
    ensures WellPlaced(Run(c, st, inputs).ends)
    decreases |inputs|
  {
    if |inputs| > 0 {
      RunKeepsEndsWellPlaced(c, Step(c, inputs[0].0, st, inputs[0].1).state, inputs[1..]);
    }
  }

  /** Hiding the page and showing it again, with nothing in between, restores
      autoplay as it was. */
  lemma HideThenShowRestoresPlaying(c: Config, env: Env, st: State)
    requires c.timing.speed > 0.0
    ensures var hidden := Step(c, env, st, VisibilityChange(false)).state;
            Step(c, env, hidden, VisibilityChange(true)).state.play.isPlaying == st.play.isPlaying
  {
    HideThenShowRestores(st.play);
  }
}

=== FILE: playback.dfy ===
/** The autoplay flag of the newer carousel component and the value it
    remembers while the page is hidden. */
module Playback {

  datatype PlayState = PlayState(isPlaying: bool, wasPlaying: bool)

  /** `wasPlaying` starts false; the timer's starting value comes from the
      timer hook and is a parameter here. */
  function Initial(startedPlaying: bool): PlayState {
    PlayState(startedPlaying, false)
  }

  /** Any visibility other than "visible" saves the flag and stops playing;
      becoming visible again restores the saved value. */
  function OnVisibilityChange(p: PlayState, visible: bool): PlayState {
    if !visible then PlayState(false, p.isPlaying) else p.(isPlaying := p.wasPlaying)
  }

  /** A reduced-motion preference switches playing off; dropping it does not
      switch playing back on. */
  function OnReducedMotion(p: PlayState, reduce: bool): PlayState {
    if reduce then p.(isPlaying := false) else p
  }

  function OnMediaButton(p: PlayState): PlayState {
    p.(isPlaying := !p.isPlaying)
  }

  /** Dragging and explicit jumps stop autoplay. */
  function Pause(p: PlayState): PlayState {
    p.(isPlaying := false)
  }

  /** Hiding the page then showing it again restores the playing flag. */
  lemma HideThenShowRestores(p: PlayState)
    ensures !OnVisibilityChange(p, false).isPlaying
    ensures OnVisibilityChange(OnVisibilityChange(p, false), true).isPlaying == p.isPlaying
  {
  }

  /** A media-button press while the page is hidden is forgotten on return:
      the flag saved at hiding time wins. */
  lemma ToggleWhileHiddenIsDiscarded(p: PlayState)
    ensures OnVisibilityChange(OnMediaButton(OnVisibilityChange(p, false)), true).isPlaying == p.isPlaying
  {
  }

  /** Two hidden notifications in a row overwrite the saved flag with the
      already-stopped one, so showing the page afterwards does not resume. */
  lemma RepeatedHideForgetsPlaying(p: PlayState)
    ensures !OnVisibilityChange(OnVisibilityChange(OnVisibilityChange(p, false), false), true).isPlaying
  {
  }

  /** The media button is its own inverse. */
  lemma MediaButtonTwiceIsIdentity(p: PlayState)
    ensures OnMediaButton(OnMediaButton(p)) == p
    ensures OnMediaButton(p).isPlaying != p.isPlaying
  {
  }
}

=== FILE: slide_index.dfy ===
/** Index arithmetic of the original carousel component.

    The component renders `length` images. In loop mode it renders one extra
    image at each end: position 0 repeats the last image and position
    `length + 1` repeats the first, so the padded list has `length + 2`
    positions and a move across either end can be animated over a single
    neighbour before the index is silently moved back onto a real image. */
module SlideIndex {
  import opened Common

  /** What the index arithmetic reads from the component's props. */
  datatype Layout = Layout(length: nat, loop: bool, rtl: bool, infinite: bool)

  /** The one way an update has no integer result: JavaScript's `x % 0` is NaN. */
  datatype IndexError = RemainderByZero

  /** Number of positions in the rendered (possibly padded) list. */
  function TotalLength(l: Layout): nat {
    if l.loop then l.length + 2 else l.length
  }

  /** The position shown before any input arrives. */
  function InitialIndex(l: Layout): int {
    if l.loop then
      (if l.rtl then TotalLength(l) - 2 else 1)
    else
      (if l.rtl then l.length - 1 else 0)
  }

  /** The rendered slide list. In loop mode, when there is at least one image,
      a copy of the last image leads and a copy of the first one trails. */
  function Rendered<T>(images: seq<T>, loop: bool): seq<T> {
    if loop && |images| >= 1 then [images[|images| - 1]] + images + [images[0]]
    else images
  }

  /** The author-facing image index shown at padded position `i`. */
  function DisplayIndex(l: Layout, i: int): int {
    if !l.loop then i
    else if i == 0 then l.length - 1
    else if i == l.length + 1 then 0
    else i - 1
  }

  /** Every padded position shows exactly the image its display index names. */
  lemma RenderedShowsDisplayIndex<T>(l: Layout, images: seq<T>, i: int)
    requires |images| == l.length >= 1
    requires 0 <= i < TotalLength(l)
    ensures |Rendered(images, l.loop)| == TotalLength(l)
    ensures 0 <= DisplayIndex(l, i) < l.length
    ensures Rendered(images, l.loop)[i] == images[DisplayIndex(l, i)]
  {
  }

  /** The starting position shows the first image (left to right) or the last
      image (right to left), and in loop mode it is a real slide, not a copy. */
  lemma InitialIndexShowsEndImage(l: Layout)
    requires l.length >= 1
    ensures 0 <= InitialIndex(l) < TotalLength(l)
    ensures DisplayIndex(l, InitialIndex(l)) == if l.rtl then l.length - 1 else 0
    ensures l.loop ==> 1 <= InitialIndex(l) <= TotalLength(l) - 2
  {
  }

  /** Whether a move by `change` from `cur` happens at all: never for a zero
      change, and otherwise only with `infinite` set or when `cur + change`
      stays inside `[0, length)` -- a bound on the image count, even in loop
      mode where the padded list is two positions longer. */
  predicate HasToUpdate(l: Layout, cur: int, change: int) {
    change != 0 && (l.infinite || (cur + change >= 0 && cur + change < l.length))
  }

  /** Silent re-basing across the seam before a move in direction `dir`:
      leaving the first real slide backwards jumps to the trailing copy of the
      first image, leaving the last real slide forwards jumps to the leading
      copy of the last image. */
  function SeamRebase(l: Layout, cur: int, dir: int): int {
    if dir < 0 && cur == 1 then TotalLength(l) - 1
    else if dir > 0 && cur == TotalLength(l) - 2 then 0
    else cur
  }

  /** The modular step `Math.abs((total + cur + change) % total)`. */
  function WrapStep(total: nat, cur: int, change: int): int
    requires total > 0
  {
    Abs(JsRemainder(total + cur + change, total))
  }

  /** `x` brought back into `[0, n)` by at most one period. */
  function Wrap(x: int, n: int): int {
    if x < 0 then x + n else if x >= n then x - n else x
  }

  lemma ModuloInSecondPeriod(a: int, n: int)
    requires 0 < n <= a < 2 * n
    ensures a % n == a - n
  {
    var q := a / n;
    assert a == n * q + a % n;
    assert q == 1;
  }

  /** For a one-step move from inside `[0, total)` the modular step wraps by
      at most one period. */
  lemma WrapStepIsOnePeriod(total: nat, cur: int, change: int)
    requires 0 <= cur < total
    requires -1 <= change <= 1
    ensures WrapStep(total, cur, change) == Wrap(cur + change, total)
  {
    var a := total + cur + change;
    if a < total {
      assert a % total == a;
    } else if a < 2 * total {
      ModuloInSecondPeriod(a, total);
    } else {
      assert a == 2 * total;
      ModuloInSecondPeriod(a - 1, total);
      assert a % total == 0;
    }
  }

  /** The index update of a move by `change` after a swipe of `swiped` pixels
      (zero for keys and autoplay): the update decision, the seam re-basing of
      non-swipe moves in loop mode, then the modular step. */
  function UpdateIndex(l: Layout, cur: int, change: int, swiped: real): (r: Result<int, IndexError>)
    ensures change == 0 ==> r == Ok(cur)
    ensures !HasToUpdate(l, cur, change) ==> r == Ok(cur)
    ensures r.Err? <==> HasToUpdate(l, cur, change) && TotalLength(l) == 0
    ensures r.Ok? && HasToUpdate(l, cur, change) ==> 0 <= r.value < TotalLength(l)
    // bounded mode: a move either lands exactly on `cur + change` or does not happen
    ensures !l.loop && !l.infinite ==>
              r == Ok(if HasToUpdate(l, cur, change) then cur + change else cur)
    // wrapping mode: the index moves circularly over the images
    ensures !l.loop && l.infinite && 0 <= cur < l.length && -1 <= change <= 1 ==>
              r == Ok(Wrap(cur + change, l.length))
    // a swipe in loop mode is not re-based: it steps circularly over the whole padded list
    ensures l.loop && swiped != 0.0 && HasToUpdate(l, cur, change) && 0 <= cur < TotalLength(l) && -1 <= change <= 1 ==>
              r == Ok(Wrap(cur + change, TotalLength(l)))
    // any other move in loop mode is re-based first, from a copy as well as from a real slide
    ensures l.loop && swiped == 0.0 && HasToUpdate(l, cur, change) && 0 <= cur < TotalLength(l) && -1 <= change <= 1 ==>
              r == Ok(Wrap(SeamRebase(l, cur, change) + change, TotalLength(l)))
  {
    if !HasToUpdate(l, cur, change) then Ok(cur)
    else
      var base := if l.loop && swiped == 0.0 then SeamRebase(l, cur, change) else cur;
      if TotalLength(l) == 0 then Err(RemainderByZero)
      else
        var next := WrapStep(TotalLength(l), base, change);
        assert !l.loop && 0 <= cur < l.length && -1 <= change <= 1 ==>
                 next == Wrap(cur + change, l.length) by {
          if !l.loop && 0 <= cur < l.length && -1 <= change <= 1 {
            WrapStepIsOnePeriod(l.length, cur, change);
          }
        }
        assert l.loop && swiped != 0.0 && 0 <= cur < TotalLength(l) && -1 <= change <= 1 ==>
                 next == Wrap(cur + change, TotalLength(l)) by {
          if l.loop && swiped != 0.0 && 0 <= cur < TotalLength(l) && -1 <= change <= 1 {
            WrapStepIsOnePeriod(TotalLength(l), cur, change);
          }
        }
        assert l.loop && swiped == 0.0 && 0 <= cur < TotalLength(l) && -1 <= change <= 1 ==>
                 next == Wrap(base + change, TotalLength(l)) by {
          if l.loop && swiped == 0.0 && 0 <= cur < TotalLength(l) && -1 <= change <= 1 {
            WrapStepIsOnePeriod(TotalLength(l), base, change);
          }
        }
        assert !l.loop && !l.infinite ==> next == cur + change by {
          if !l.loop && !l.infinite {
            ModuloInSecondPeriod(l.length + cur + change, l.length);
          }
        }
        Ok(next)
  }

  /** In loop mode a non-swipe move from a real slide lands on a real slide,
      and the image shown advances circularly by `change`. */
  lemma LoopMoveStaysOnRealSlides(l: Layout, cur: int, change: int)
    requires l.loop && l.length >= 1
    requires 1 <= cur <= TotalLength(l) - 2
    requires -1 <= change <= 1
    ensures UpdateIndex(l, cur, change, 0.0).Ok?
    ensures 1 <= UpdateIndex(l, cur, change, 0.0).value <= TotalLength(l) - 2
    ensures HasToUpdate(l, cur, change) ==>
              DisplayIndex(l, UpdateIndex(l, cur, change, 0.0).value)
              == Wrap(DisplayIndex(l, cur) + change, l.length)
  {
    var total := TotalLength(l);
    if HasToUpdate(l, cur, change) {
      var base := SeamRebase(l, cur, change);
      WrapStepIsOnePeriod(total, base, change);
    }
  }

  /** The two seam crossings: backwards from the first real slide lands on the
      last real slide, forwards from the last real slide on the first one. */
  lemma SeamCrossings(l: Layout)
    requires l.loop && l.length >= 1
    ensures UpdateIndex(l, 1, -1, 0.0) == Ok(TotalLength(l) - 2)
    ensures l.infinite ==> UpdateIndex(l, TotalLength(l) - 2, 1, 0.0) == Ok(1)
  {
    LoopMoveStaysOnRealSlides(l, 1, -1);
    var total := TotalLength(l);
    assert WrapStep(total, total - 1, -1) == total - 2;
  }

  /** Seam re-basing never changes which image is on screen: positions 1 and
      `total - 1` both show the first image, `total - 2` and 0 the last. */
  lemma SeamRebasePreservesImage<T>(l: Layout, images: seq<T>, cur: int, dir: int)
    requires l.loop && |images| == l.length >= 1
    requires 0 <= cur < TotalLength(l)
    ensures 0 <= SeamRebase(l, cur, dir) < TotalLength(l)
    ensures DisplayIndex(l, SeamRebase(l, cur, dir)) == DisplayIndex(l, cur)
    ensures Rendered(images, true)[SeamRebase(l, cur, dir)] == Rendered(images, true)[cur]
  {
    RenderedShowsDisplayIndex(l, images, cur);
    RenderedShowsDisplayIndex(l, images, SeamRebase(l, cur, dir));
  }
}

=== FILE: timing.dfy ===
/** Transition timing of both carousel components: how far the slides still
    have to travel after a gesture, and how long that animation may last. */
module Timing {
  import opened Common

  /** Distance left to animate. When the index changes the slides travel the
      rest of one container width beyond what the drag already covered; on a
      snap-back they retrace the dragged distance. */
  function TravelDistance(width: real, swiped: real, hasToUpdate: bool): (d: real)
    ensures d >= 0.0
    ensures hasToUpdate && RealAbs(swiped) <= width ==> d + RealAbs(swiped) == width
    ensures hasToUpdate && width <= RealAbs(swiped) ==> d == RealAbs(swiped) - width
    ensures !hasToUpdate ==> d == RealAbs(swiped)
  {
    var swipedDistance := RealAbs(swiped);
    if hasToUpdate then RealAbs(width - swipedDistance) else swipedDistance
  }

  /** Original component: the travel time at `speed`, replaced by 99% of the
      autoplay interval when autoplay is on and the travel would outlast it. */
  function LegacyDuration(speed: real, auto: bool, interval: real,
                          width: real, swiped: real, hasToUpdate: bool): (r: real)
    requires speed != 0.0
    ensures !auto || TravelDistance(width, swiped, hasToUpdate) / speed <= interval ==>
              r * speed == TravelDistance(width, swiped, hasToUpdate)
    ensures auto && TravelDistance(width, swiped, hasToUpdate) / speed > interval ==>
              r == interval * 0.99
    ensures auto && interval >= 0.0 ==> r <= interval
    ensures speed > 0.0 && (auto ==> interval >= 0.0) ==> r >= 0.0
  {
    var duration := TravelDistance(width, swiped, hasToUpdate) / speed;
    if auto && duration > interval then interval * 0.99 else duration
  }

  /** Bounds the newer component applies to a planned duration; `min` and
      `max` take effect only when truthy. */
  datatype Bounds = Bounds(speed: real, min: Option<real>, max: Option<real>, autoPlayInterval: real)

  /** The travel time before any bound is applied. */
  function RawDuration(b: Bounds, width: real, swiped: real, hasToUpdate: bool): real
    requires b.speed > 0.0
  {
    TravelDistance(width, swiped, hasToUpdate) / b.speed
  }

  /** `d` already respects every active bound. */
  predicate WithinBounds(b: Bounds, d: real, isPlaying: bool) {
    && (Truthy(b.min) ==> d >= b.min.value)
    && (Truthy(b.max) ==> d <= b.max.value)
    && (isPlaying ==> d <= b.autoPlayInterval)
  }

  /** Newer component: no duration at all under reduced motion; otherwise the
      travel time raised to `min`, then lowered to `max` (so `max` wins when
      the two conflict), then lowered to the autoplay interval while playing. */
  function PlanDuration(b: Bounds, width: real, swiped: real, hasToUpdate: bool,
                        isPlaying: bool, isReducedMotion: bool): (r: Option<real>)
    requires b.speed > 0.0
    ensures r.None? <==> isReducedMotion
    ensures r.Some? && WithinBounds(b, RawDuration(b, width, swiped, hasToUpdate), isPlaying) ==>
              r.value * b.speed == TravelDistance(width, swiped, hasToUpdate)
    ensures r.Some? && Truthy(b.max) ==> r.value <= b.max.value
    ensures r.Some? && isPlaying ==> r.value <= b.autoPlayInterval
    ensures r.Some? && Truthy(b.min) && WithinBounds(b.(min := None), b.min.value, isPlaying) ==>
              r.value >= b.min.value
    ensures (&& r.Some? && Truthy(b.min) && Truthy(b.max) && b.min.value > b.max.value
             && (isPlaying ==> b.max.value <= b.autoPlayInterval)) ==>
              r.value == b.max.value
    ensures r.Some? && WithinBounds(b.(min := None), 0.0, isPlaying) ==> r.value >= 0.0
    // a clamped duration lands exactly on the bound that clamped it
    ensures (&& r.Some? && Truthy(b.min) && RawDuration(b, width, swiped, hasToUpdate) < b.min.value
             && WithinBounds(b.(min := None), b.min.value, isPlaying)) ==>
              r.value == b.min.value
    ensures (&& r.Some? && Truthy(b.max) && RawDuration(b, width, swiped, hasToUpdate) > b.max.value
             && (isPlaying ==> b.max.value <= b.autoPlayInterval)) ==>
              r.value == b.max.value
    ensures (&& r.Some? && isPlaying && RawDuration(b, width, swiped, hasToUpdate) > b.autoPlayInterval
             && WithinBounds(b, b.autoPlayInterval, false)) ==>
              r.value == b.autoPlayInterval
  {
    if isReducedMotion then None
    else
      var duration := RawDuration(b, width, swiped, hasToUpdate);
      var atLeastMin := if Truthy(b.min) && duration < b.min.value then b.min.value else duration;
      var atMostMax := if Truthy(b.max) && atLeastMin > b.max.value then b.max.value else atLeastMin;
      var capped := if isPlaying && atMostMax > b.autoPlayInterval then b.autoPlayInterval else atMostMax;
      Some(capped)
  }
}
